=== FILE: README.md ===
# ConverterWeb core, modelled in Dafny

ConverterWeb is a small web tool: a user pastes a video link (YouTube,
Instagram, TikTok, Twitter/X, Facebook), sees its title, duration and
thumbnail, and downloads it as MP4 at a quality tier or as MP3. The server
(`server.js`) classifies the link and hands the work to the YouTube client
library, the `yt-dlp` extractor or the `ffmpeg` transcoder. The page script
(`public/script.js`) classifies the link once more for display and formats the
duration.

This project models the pure decisions inside that glue and proves what they
promise:

- `duration.dfy`: the page's `formatDuration`. A second count becomes `M:SS`
  or `H:MM:SS`, and a falsy value becomes the placeholder
  `Duración desconocida`. The fields recombine to the input. A separate reader
  (`ParseDuration`) turns every clock output (that of every positive count)
  back into the count it came from. The placeholder does not read back.
- `platform.dfy`: the page's `detectPlatformFromUrl` and the server's
  `detectPlatform`. Both are ordered substring tests where the first match
  wins. Each is shown equal to an ordered rule table. Lemmas state where the
  two classifiers agree and where they do not: the server never looks for
  `youtube.com`, and it trusts the YouTube library's `validateURL` instead.
- `metadata.dfy`: the records built by `getVideoInfoYtDlp` and `getVideoInfo`,
  including the defaults and the degraded record used when yt-dlp is missing,
  and the `POST /api/info` decision.
- `download.dfy`: the `POST /api/download` decision table. It covers the
  400/501 refusals and the three download plans with their file paths. It
  also covers the yt-dlp command line, with a reader that recovers the
  selector, URL and output path from it, and the 500 replies after a yt-dlp
  run.
- `capabilities.dfy`: the `GET /api/check-ytdlp` reply. Its platform map is
  proved to agree with what `POST /api/download` does for mp3 and mp4
  requests. For another format on YouTube the map still says supported, but
  the download is refused with 400.
- `text.dfy`, `wrappers.dfy`: the JavaScript string built-ins used
  (`includes`, `padStart`, `toString`, `trim`, `||` on strings) and
  Option/Result.

The external calls are parameters: `ytdl.validateURL` (any predicate on
strings), the results of `ytdl.getInfo`, of running yt-dlp and parsing its
JSON output, of the `yt-dlp --version` probes, and the two `Date.now()`
readings.

Behaviour of the code worth knowing:

- Formats are not checked before the platform. Only the YouTube branch
  refuses a format other than mp3/mp4. Any other platform accepts any format
  (`yt-dlp -f "best"`, output `download_<ts>.<format>`), and only after the
  yt-dlp probe.
- A missing quality is not "high" on the server. Everything except the exact
  string `high` selects `lowestvideo` / `worst`. The "high" default lives in
  the page script, which is not modelled.
- The degraded metadata record's title is `Video`.
- The server's classifier does not test `youtube.com`. Its YouTube test is
  `validateURL`.
- File names are `download_<Date.now()>`. Nothing makes them unique: two
  requests in the same millisecond on the same branch get the same path
  (`Download.OutputPathsAndStamps`).
- On YouTube the title is passed through as the library reports it. Nothing
  makes it non-empty.

## Model

| member | source | states |
|---|---|---|
| `Duration.Fields` | public/script.js:48-50 | hours·3600 + minutes·60 + seconds equals the input; minutes and seconds are below 60 |
| `Duration.FieldsUnique` | public/script.js:48-50 | this is the only split with minutes and seconds below 60 |
| `Duration.FormatDuration` | public/script.js:46-56 | every output has at least four characters (the shapes are stated by the lemmas below) |
| `Duration.FormatDurationUnknown` | public/script.js:47 | the output is `Duración desconocida` if and only if the input is falsy (absent or 0) |
| `Duration.FormatDurationRoundTrip` | public/script.js:48-55 | for every positive count, reading the output back as `M:SS` / `H:MM:SS` gives the same count |
| `Duration.FormatDurationShortShape` | public/script.js:55 | below 3600: two colon-separated fields, the first the whole minutes unpadded, the second exactly two characters |
| `Duration.FormatDurationLongShape` | public/script.js:52-53 | from 3600 on: three fields, hours unpadded, minutes and seconds exactly two characters each |
| `Duration.RenderReads` | public/script.js:52-55 | either printed shape, split at its colons, reads back to exactly the hours, minutes and seconds it was printed from |
| `Duration.RenderSplits` | public/script.js:52-55 | the colons of a printed clock separate exactly its unpadded leading field and its padded fields |
| `Duration.Pad2Reads` | public/script.js:53 | a value below 60 padded with `padStart(2, '0')` is exactly two digits and reads back to the value |
| `Text.NatToString` | public/script.js:53 | `toString` of a count is non-empty decimal digits, with no leading zero except for 0, and one digit exactly below 10 |
| `Text.NatToStringRoundTrip` | public/script.js:53 | decimal reading inverts `toString` |
| `Text.PadStart` | public/script.js:53 | `padStart` gives length max(width, original), keeps the original as suffix, and fills the front with the pad character |
| `Platform.DetectPlatformFromUrl` | public/script.js:59-66 | the label is one of the six labels; a `youtube.com` or `youtu.be` substring always gives `YouTube` |
| `Platform.ClientFollowsRules` | public/script.js:59-66 | the page classifier equals the ordered rule table (YouTube, Instagram, TikTok, Twitter/X, Facebook) read first-match-wins with fallback `Desconocida` |
| `Platform.FirstMatchAt` | public/script.js:60-64 | in an ordered rule table, the first rule that matches decides, whatever later rules match |
| `Platform.FirstMatchNone` | public/script.js:65 | when no rule matches, the fallback is the answer |
| `Platform.ClientUnknownIff` | public/script.js:59-66 | `Desconocida` if and only if none of the seven substrings occurs |
| `Platform.ClientLabelsReachable` | public/script.js:60-65 | each of the six labels is produced by some URL |
| `Platform.ClientYouTubeBeatsTikTok` | public/script.js:60-62 | a URL with both `youtu.be` and `tiktok.com` is `YouTube`, the first rule of the table |
| `Platform.ClientAnyXcomHost` | public/script.js:63 | any host ending in `x.com`, with none of the earlier substrings, is `Twitter/X` |
| `Platform.ClientNetflixIsTwitter` | public/script.js:63 | `https://www.netflix.com/` is labelled `Twitter/X` |
| `Platform.DetectPlatform` | server.js:30-37 | the key is one of six; it is `youtube` exactly when `validateURL` accepts the URL |
| `Platform.ServerFollowsRules` | server.js:30-37 | the server classifier is `validateURL`, then the ordered table instagram, tiktok, twitter/x, facebook, with fallback `unknown` |
| `Platform.ServerOrder` | server.js:32-36 | when `validateURL` rejects, the first matching server rule decides |
| `Platform.ClassifiersAgreeOffYouTube` | server.js:31-36 | when `validateURL` rejects and neither YouTube substring occurs, the server key is the key of the page's label |
| `Platform.ServerIgnoresYoutubeDotCom` | server.js:31-36 | a URL that `validateURL` rejects, containing `youtube.com` and no other server substring, is `YouTube` on the page and `unknown` on the server |
| `Platform.ServerIgnoresYoutubeDotComExample` | server.js:31-36 | the same for the URL `youtube.com` |
| `Platform.ShortLinkDisagreement` | server.js:31-33 | when `validateURL` rejects `youtu.be/tiktok.com`, the page says `YouTube` and the server says `tiktok` |
| `Text.Contains` | server.js:32-35 | `includes`: the empty string occurs in every string, and a string that occurs is no longer than the one searched |
| `Metadata.FirstThumbnailUrl` | server.js:57 | `thumbnails?.[0]?.url`: a URL is found only when the list exists, is non-empty and its first entry exists, and then it is that entry's `url` field, which may itself be missing |
| `Download.FileName` | server.js:217-218 | `download_<ts>.<ext>` starts with `download_`, ends with `.` and the extension, and has at least one timestamp character between |
| `Duration.Falsy` | public/script.js:47 | `!seconds` is false only for a present, positive count |
| `Text.Or` | server.js:55 | `a \|\| b` on strings gives `a` when it is present and non-empty, otherwise `b` |
| `Metadata.InfoFromDump` | server.js:54-58 | the yt-dlp record always has a non-empty title and a thumbnail string, and no note |
| `Metadata.DumpDefaults` | server.js:54-58 | title defaults to `Video`, duration to 0, formats to `[]`; the thumbnail is the first truthy of `thumbnail` and `thumbnails[0].url`, else `''`; fields that are present and truthy are kept |
| `Metadata.DumpThumbnailOffered` | server.js:57 | the thumbnail is one of the URLs the dump offered, or empty |
| `Metadata.DegradedInfo` | server.js:85-91 | the record used without yt-dlp carries a note |
| `Metadata.EmptyDumpIsDegraded` | server.js:54-91 | a dump with every field missing gives the degraded record without its note |
| `Metadata.GetVideoInfo` | server.js:66-95 | every failure message starts with `Error al obtener información: `; off YouTube without yt-dlp the result is the degraded record; with yt-dlp and a parsed dump it is the defaulted dump record; on YouTube the thumbnail is the first listed one's URL, or absent when none is listed; a record with a note is the degraded one |
| `Metadata.InfoEndpoint` | server.js:98-115 | errors are 400 or 500; a 200 reply carries the detected platform, which is never `unknown`, and needs a non-empty URL |
| `Metadata.InfoMissingUrl` | server.js:100-103 | a missing or empty URL gives 400 `URL requerida`, whatever the other inputs |
| `Metadata.InfoUnknownPlatform` | server.js:105-108 | an `unknown` platform gives 400 `Plataforma no soportada` |
| `Metadata.InfoYouTube` | server.js:68-75 | on YouTube the library's title, length, formats and first thumbnail URL (absent when there is none) are reported unchanged, with platform `youtube` |
| `Metadata.InfoDegradedWithoutYtDlp` | server.js:79-91 | off YouTube without yt-dlp, the reply is 200 with the degraded record (duration 0, note present), whatever yt-dlp would have said |
| `Metadata.InfoSurfacesToolMessage` | server.js:60-94 | a failed library or yt-dlp call gives 500, with the tool's message after one prefix (YouTube) or two (yt-dlp) |
| `Download.BuildCommand` | server.js:221-230 | the command starts with `yt-dlp -` and ends with ` -o "<outputPath>"` |
| `Download.CommandLayout` | server.js:221-230 | the command is the prefix for its selector (`-x --audio-format mp3`, `-f "best[ext=mp4]"`, `-f "worst[ext=mp4]"` or `-f "best"`), then the quoted URL, then the output option |
| `Download.CommandRoundTrip` | server.js:221-230 | for a URL without `"`, reading the command back gives the selector that the format and quality mean, the URL and the output path |
| `Download.QualityMapping` | server.js:226 | for mp4, `best` is chosen exactly when quality is `high`; everything else, a missing quality included, gives `worst` |
| `Download.FileNameInjective` | server.js:132 | `download_<ts>.<ext>` determines both the timestamp and the extension |
| `Download.OutputPathsAndStamps` | server.js:216-218 | two yt-dlp output paths for the same format are equal exactly when the timestamps are equal |
| `Download.DownloadDecision` | server.js:118-230 | refusals are 400 or 501; a started plan needs a non-empty URL and format and a recognised platform |
| `Download.MissingFieldsFirst` | server.js:122-124 | a missing or empty URL or format gives 400 `URL y formato requeridos`, whatever the platform test and the other inputs |
| `Download.UnknownPlatformRefused` | server.js:126-129 | an `unknown` platform gives 400 `Plataforma no soportada` |
| `Download.YouTubeMp3` | server.js:131-138 | YouTube mp3 streams `highestaudio` into `temp/download_<ts>.mp4` and converts it to `downloads/download_<ts>.mp3`, with the same timestamp |
| `Download.YouTubeMp4` | server.js:175-178 | YouTube mp4 writes `downloads/download_<ts>.mp4` at `highestvideo` exactly for quality `high`, and at `lowestvideo` otherwise |
| `Download.YouTubeOtherFormat` | server.js:202-204 | on YouTube, a format other than mp3/mp4 gives 400 `Formato no soportado` |
| `Download.NonYouTubeWithoutYtDlp` | server.js:207-213 | off YouTube without yt-dlp, the reply is 501 and no command is built |
| `Download.NonYouTubeWithYtDlp` | server.js:216-230 | off YouTube with yt-dlp, every format is accepted: the output is `downloads/download_<second ts>.<format>`, and for a URL without `"` the command reads back to that path, the URL and the intended selector |
| `Download.DecisionShape` | server.js:122-230 | 501 happens, and a yt-dlp run starts, exactly for a non-empty request on a recognised non-YouTube platform, without and with yt-dlp respectively |
| `Download.FinishYtDlp` | server.js:232-251 | the file is sent exactly when the run succeeded and the file exists; otherwise the reply is 500, and a failed run's reply is `Error al descargar: ` followed by the tool's message |
| `Text.Trim` | server.js:273 | `trim` gives a contiguous piece of the input with only white space cut off around it, and no white space at either end |
| `Capabilities.CheckYtDlp` | server.js:265-289 | `installed` is the probe result; the map has exactly the five platform keys; a version is present exactly when yt-dlp is installed and the version run succeeded, and then it is the trimmed output of that run |
| `Capabilities.PlatformSupport` | server.js:282-288 | the `platforms` object has exactly the keys youtube, instagram, tiktok, twitter and facebook |
| `Capabilities.PlatformsMap` | server.js:282-288 | `youtube` is always true; every other platform equals `installed` |
| `Capabilities.VersionIsTrimmed` | server.js:270-277 | the version is a slice of the printed text with only white space before and after it and no white space at either end, so exactly the white space around it is cut off |
| `Capabilities.SupportKeysArePlatforms` | server.js:282-288 | the map's keys are exactly the server's platform keys except `unknown` |
| `Capabilities.PlatformsMatchDownloads` | server.js:282-288 | for a recognised platform and an mp3/mp4 request, `POST /api/download` goes ahead exactly when the map lists the platform as supported |

## Left out

- External processes are left out: the `yt-dlp` runs (`exec`), the parsing of their JSON output, and `checkYtDlpAvailable` itself. Their results are inputs.
- `ytdl(...)` streams, `pipe`, the `end`/`error` callbacks and the `fluent-ffmpeg` conversion are left out. The 500 replies of the YouTube branch (`Error al descargar el video`, `Error en la conversión`) come from asynchronous events, and the model does not capture their order (including a possible second reply).
- File system work and timers are left out: creating the directories, `createWriteStream`, `unlinkSync`, `existsSync` (its answer is an input to `Download.FinishYtDlp`) and the 60-second cleanup.
- The internals of `ytdl.validateURL` are left out. It is any predicate on strings.
- `path.join` is modelled as joining a normalised directory with `/`. Path normalisation is not modelled.
- `Download.OutputPathsAndStamps`, `Download.NonYouTubeWithYtDlp`, `Download.Join`: the user-supplied `format` becomes part of the yt-dlp output path, and `path.join` resolves `..` in it. For example, the format `x/../../y` gives `<root>/y` whatever the timestamp. So in the code, different timestamps can give the same path, and the file can land outside `downloads/`, where the cleanup deletes it. Because `Join` does not normalise, the model's "different timestamps give different paths" holds only for formats without `/`, and the stated output path is the unnormalised one.
- `Text.NatToString`, `Duration.FormatDuration`: JavaScript numbers are doubles. Counts are modelled as unbounded integers. The model matches the code only for safe integers (below 2^53). Above that, `Math.floor` and `%` are no longer exact, and from 1e21 on `toString` prints exponent notation (`1e+21`). `Duration.FormatDurationRoundTrip` and `Text.NatToStringRoundTrip` are stated for every count, beyond that range.
- Express routing, middleware, the outer `try`/`catch` 500 replies, `GET /api/health` (a constant reply) and `app.listen` are left out.
- The page's DOM, `fetch` and blob code is left out (`analyzeUrl`, `downloadFile`, the warning banner). This includes the page's own `high` quality default and the `download.<format>` attachment name.
- Request fields are strings or absent. Other JSON values (numbers, objects) are not modelled.
- `Duration.FormatDuration`: only whole, non-negative second counts are modelled. JavaScript would also accept negative, fractional and string values (the YouTube path returns `lengthSeconds` as a string), with different output.
- `Metadata.GetVideoInfo`: a malformed library answer (a missing `videoDetails`, say) throws a `TypeError` in JavaScript. That failure is not modelled. The yt-dlp duration is a whole count, not a float.
- `Download.CommandRoundTrip`: holds only for URLs without a double quote. The command line is built by raw interpolation, so a URL containing `"` is spliced into the shell command unchanged. Shell parsing and escaping are not modelled.
- Uniqueness of `Date.now()` file names is not claimed. The code does not ensure it.

=== FILE: capabilities.dfy ===
/**
 * The `GET /api/check-ytdlp` reply of server.js: whether yt-dlp is
 * installed, its version string, and which platforms can be downloaded.
 *
 * `available` is the outcome of the first `yt-dlp --version` probe;
 * `versionRun` is what the second run printed, or its error message (it is
 * run only when the first one succeeded).
 */
module Capabilities {
  import opened Wrappers
  import opened Text
  import Platform
  import Download

  datatype ToolStatus = ToolStatus(installed: bool, version: Option<string>, platforms: map<string, bool>)

  const SupportKeys: set<string> := {"youtube", "instagram", "tiktok", "twitter", "facebook"}

  /** The `platforms` object of the reply. */
  function PlatformSupport(available: bool): (m: map<string, bool>)
    ensures m.Keys == SupportKeys
  {
    var m := map[
      "youtube" := true,
      "instagram" := available,
      "tiktok" := available,
      "twitter" := available,
      "facebook" := available];
    assert m.Keys == {"youtube", "instagram", "tiktok", "twitter", "facebook"};
    m
  }

  /** The capability reply. */
  function CheckYtDlp(available: bool, versionRun: Result<string, string>): (status: ToolStatus)
    ensures status.installed == available
    ensures status.platforms.Keys == SupportKeys
    ensures status.version.Some? <==> available && versionRun.Success?
    ensures available && versionRun.Success? ==> status.version == Some(Trim(versionRun.value))
  {
    var version := if available && versionRun.Success? then Some(Trim(versionRun.value)) else None;
    ToolStatus(available, version, PlatformSupport(available))
  }

  /** YouTube is always listed as supported; every other platform exactly when yt-dlp is installed. */
  lemma PlatformsMap(available: bool, versionRun: Result<string, string>)
    ensures CheckYtDlp(available, versionRun).platforms["youtube"]
    ensures forall p :: p in SupportKeys - {"youtube"} ==> CheckYtDlp(available, versionRun).platforms[p] == available
  {
  }

  /**
   * The version, when there is one, is the printed text with only the white
   * space around it removed: a slice of the output with white space alone
   * before and after it, and no white space at either end.
   */
  lemma VersionIsTrimmed(available: bool, stdout: string)
    requires available
    ensures var v := CheckYtDlp(available, Success(stdout)).version;
      v.Some? && (v.value == [] || (!IsJsSpace(v.value[0]) && !IsJsSpace(v.value[|v.value| - 1])))
      && (exists i, j :: 0 <= i <= j <= |stdout| && v.value == stdout[i..j]
                         && AllSpace(stdout[..i]) && AllSpace(stdout[j..]))
  {
  }

  /** The supported keys are exactly the server's platform keys other than 'unknown'. */
  lemma SupportKeysArePlatforms()
    ensures SupportKeys == Platform.ServerKeys - {"unknown"}
  {
  }

  /**
   * The map tells the truth about `POST /api/download`: for a recognised
   * platform and an mp3 or mp4 request, the download proceeds exactly when
   * the map lists the platform as supported.
   */
  lemma PlatformsMatchDownloads(req: Download.Request, validateURL: string -> bool, available: bool,
                                versionRun: Result<string, string>, root: string, stamp: nat, stampYtDlp: nat)
    requires Truthy(req.url) && req.format in {Some("mp3"), Some("mp4")}
    requires Platform.DetectPlatform(validateURL, req.url.value) != "unknown"
    ensures var p := Platform.DetectPlatform(validateURL, req.url.value);
      p in CheckYtDlp(available, versionRun).platforms
      && (Download.DownloadDecision(req, validateURL, available, root, stamp, stampYtDlp).Proceed?
          <==> CheckYtDlp(available, versionRun).platforms[p])
  {
  }
}

=== FILE: download.dfy ===
/**
 * The `POST /api/download` handler of server.js as a decision: which
 * request is refused with which status, and for the others which download
 * plan is started (file paths, the YouTube quality selector, or the yt-dlp
 * command line). The streams, the transcoder, the shell and the file system
 * that then carry the plan out are not modelled; the outcome of a yt-dlp run
 * is an input to FinishYtDlp.
 *
 * `root` is the server's own directory (`__dirname`); `path.join` is taken as
 * joining with "/" a normalised directory that has no trailing separator.
 * `stamp` and `stampYtDlp` are the two `Date.now()` readings the handler
 * takes (the second one only on the yt-dlp branch, after probing for yt-dlp).
 */
module Download {
  import opened Wrappers
  import opened Text
  import Platform

  /** The request body; each field may be missing. */
  datatype Request = Request(url: Option<string>, format: Option<string>, quality: Option<string>)

  /** What the handler starts for an accepted request. */
  datatype Plan =
    | YouTubeAudio(url: string, ytdlQuality: string, tempPath: string, outputPath: string)
      // ytdl stream into tempPath, then the transcoder writes outputPath
    | YouTubeVideo(url: string, ytdlQuality: string, outputPath: string)
      // ytdl stream straight into outputPath
    | YtDlpRun(command: string, outputPath: string)
      // one yt-dlp command line that writes outputPath

  datatype Decision = Reject(status: nat, error: string) | Proceed(plan: Plan)

  const MissingFields := "URL y formato requeridos"
  const UnsupportedPlatform := "Plataforma no soportada"
  const UnsupportedFormat := "Formato no soportado"
  const NeedsYtDlp := "Para convertir videos de esta plataforma, necesitas instalar yt-dlp. Ver instrucciones en el README."

  function Join(dir: string, name: string): string
  {
    dir + "/" + name
  }

  function DownloadsDir(root: string): string { Join(root, "downloads") }

  function TempDir(root: string): string { Join(root, "temp") }

  /** `download_<timestamp>`. */
  function BaseName(stamp: nat): string
  {
    "download_" + NatToString(stamp)
  }

  /** `download_<timestamp>.<ext>`. */
  function FileName(stamp: nat, ext: string): (name: string)
    ensures StartsWith(name, "download_") && EndsWith(name, "." + ext)
    ensures |name| > |"download_." + ext|
  {
    BaseName(stamp) + "." + ext
  }

  /** The yt-dlp command line, built as the handler builds it: a default, possibly replaced, then the output option. */
  function BuildCommand(url: string, format: string, quality: Option<string>, outputPath: string): (command: string)
    ensures StartsWith(command, "yt-dlp -")
    ensures EndsWith(command, " -o \"" + outputPath + "\"")
  {
    var initial := "yt-dlp -f \"best\" \"" + url + "\"";
    var chosen :=
      if format == "mp3" then "yt-dlp -x --audio-format mp3 \"" + url + "\""
      else if format == "mp4" then
        var qualityFlag := if quality == Some("high") then "best" else "worst";
        "yt-dlp -f \"" + qualityFlag + "[ext=mp4]\" \"" + url + "\""
      else initial;
    var command := chosen + " -o \"" + outputPath + "\"";
    assert command[..8] == chosen[..8];
    command
  }

  /** The download decision. */
  function DownloadDecision(req: Request, validateURL: string -> bool, ytDlpAvailable: bool,
                            root: string, stamp: nat, stampYtDlp: nat): (d: Decision)
    ensures d.Reject? ==> d.status in {400, 501}
    ensures d.Proceed? ==> Truthy(req.url) && Truthy(req.format)
                           && Platform.DetectPlatform(validateURL, req.url.value) != "unknown"
  {
    if !Truthy(req.url) || !Truthy(req.format) then Reject(400, MissingFields)
    else
      var url, format := req.url.value, req.format.value;
      var platform := Platform.DetectPlatform(validateURL, url);
      if platform == "unknown" then Reject(400, UnsupportedPlatform)
      else if platform == "youtube" then
        if format == "mp3" then
          Proceed(YouTubeAudio(url, "highestaudio",
                               Join(TempDir(root), FileName(stamp, "mp4")),
                               Join(DownloadsDir(root), FileName(stamp, "mp3"))))
        else if format == "mp4" then
          Proceed(YouTubeVideo(url, if req.quality == Some("high") then "highestvideo" else "lowestvideo",
                               Join(DownloadsDir(root), FileName(stamp, "mp4"))))
        else Reject(400, UnsupportedFormat)
      else if !ytDlpAvailable then Reject(501, NeedsYtDlp)
      else
        var outputPath := Join(DownloadsDir(root), FileName(stampYtDlp, format));
        Proceed(YtDlpRun(BuildCommand(url, format, req.quality, outputPath), outputPath))
  }

  /** How a yt-dlp run ends: the file is sent, or the reply is a 500. */
  datatype Completion = SendFile(path: string) | Failed(status: nat, error: string)

  /**
   * After the command ran: `execError` is the message of a failed run (None
   * when it succeeded) and `fileExists` whether the output file is there.
   */
  function FinishYtDlp(outputPath: string, execError: Option<string>, fileExists: bool): (c: Completion)
    ensures c.SendFile? <==> execError.None? && fileExists
    ensures c.SendFile? ==> c.path == outputPath
    ensures c.Failed? ==> c.status == 500
    ensures execError.Some? ==> c == Failed(500, "Error al descargar: " + execError.value)
  {
    match execError
    case Some(m) => Failed(500, "Error al descargar: " + m)
    case None => if fileExists then SendFile(outputPath) else Failed(500, "Error al generar el archivo")
  }

  // ------------------------------------------------------------------
  // A reader for the command lines, the partner of BuildCommand.

  /** What yt-dlp is asked to fetch. */
  datatype Selector = ExtractMp3 | BestMp4 | WorstMp4 | BestAny

  datatype Invocation = Invocation(selector: Selector, url: string, outputPath: string)

  const Mp3Prefix := "yt-dlp -x --audio-format mp3 \""
  const BestMp4Prefix := "yt-dlp -f \"best[ext=mp4]\" \""
  const WorstMp4Prefix := "yt-dlp -f \"worst[ext=mp4]\" \""
  const BestAnyPrefix := "yt-dlp -f \"best\" \""
  const OutputOption := "\" -o \""

  /** The selector the handler means for a format and quality. */
  function IntendedSelector(format: string, quality: Option<string>): Selector
  {
    if format == "mp3" then ExtractMp3
    else if format == "mp4" then (if quality == Some("high") then BestMp4 else WorstMp4)
    else BestAny
  }

  /** Reads `<url>" -o "<outputPath>"`, the URL ending at its first quote. */
  function ParseTail(selector: Selector, rest: string): Option<Invocation>
  {
    match IndexOf(rest, '"')
    case None => None
    case Some(i) =>
      var tail := rest[i..];
      if |tail| >= 7 && tail[..6] == OutputOption && tail[|tail| - 1] == '"'
      then Some(Invocation(selector, rest[..i], tail[6..|tail| - 1]))
      else None
  }

  /** Reads a command line back into the selector, the URL and the output path. */
  function ParseCommand(command: string): Option<Invocation>
  {
    if StartsWith(command, Mp3Prefix) then ParseTail(ExtractMp3, command[|Mp3Prefix|..])
    else if StartsWith(command, BestMp4Prefix) then ParseTail(BestMp4, command[|BestMp4Prefix|..])
    else if StartsWith(command, WorstMp4Prefix) then ParseTail(WorstMp4, command[|WorstMp4Prefix|..])
    else if StartsWith(command, BestAnyPrefix) then ParseTail(BestAny, command[|BestAnyPrefix|..])
    else None
  }

  function PrefixOf(selector: Selector): string
  {
    match selector
    case ExtractMp3 => Mp3Prefix
    case BestMp4 => BestMp4Prefix
    case WorstMp4 => WorstMp4Prefix
    case BestAny => BestAnyPrefix
  }

  /** The command line is its selector's prefix, then the URL, then the output option. */
  lemma CommandLayout(url: string, format: string, quality: Option<string>, outputPath: string)
    ensures BuildCommand(url, format, quality, outputPath) ==
      PrefixOf(IntendedSelector(format, quality)) + (url + OutputOption + outputPath + "\"")
  {
    var selector := IntendedSelector(format, quality);
    if format == "mp4" {
      var flag := if quality == Some("high") then "best" else "worst";
      assert "yt-dlp -f \"" + flag + "[ext=mp4]\" \"" == PrefixOf(selector);
    }
    Regroup(PrefixOf(selector), url, outputPath);
  }

  lemma Regroup(prefix: string, url: string, outputPath: string)
    ensures prefix + url + "\"" + " -o \"" + outputPath + "\"" == prefix + (url + OutputOption + outputPath + "\"")
  {
  }

  lemma {:induction false} TailRoundTrip(selector: Selector, url: string, outputPath: string)
    requires '"' !in url
    ensures ParseTail(selector, url + OutputOption + outputPath + "\"") == Some(Invocation(selector, url, outputPath))
  {
    var rest := url + OutputOption + outputPath + "\"";
    assert rest == url + ['"'] + (rest[|url| + 1..]);
    IndexOfAfter(url, '"', rest[|url| + 1..]);
    var tail := rest[|url|..];
    assert tail == OutputOption + outputPath + "\"";
    assert rest[..|url|] == url;
    assert tail[6..|tail| - 1] == outputPath;
  }

  /** Only the selector's own prefix starts its command line: the four prefixes differ early. */
  lemma PrefixesDistinguish(selector: Selector, rest: string)
    ensures var c := PrefixOf(selector) + rest;
      && (StartsWith(c, Mp3Prefix) <==> selector == ExtractMp3)
      && (selector != ExtractMp3 ==> (StartsWith(c, BestMp4Prefix) <==> selector == BestMp4))
      && (selector !in {ExtractMp3, BestMp4} ==> (StartsWith(c, WorstMp4Prefix) <==> selector == WorstMp4))
      && (selector == BestAny ==> StartsWith(c, BestAnyPrefix))
  {
    var c := PrefixOf(selector) + rest;
    assert c[..|PrefixOf(selector)|] == PrefixOf(selector);
    assert c[8] == PrefixOf(selector)[8];
    if selector != ExtractMp3 {
      assert c[11] == PrefixOf(selector)[11];
    }
    assert BestMp4Prefix[11] == 'b' && WorstMp4Prefix[11] == 'w' && BestMp4Prefix[15] == '[';
    if selector == BestAny {
      assert c[15] == '"';
    }
  }

  /**
   * For a URL without a double quote, the command line determines what the
   * handler asked for: the selector its format and quality mean, the URL and
   * the output path all read back.
   */
  lemma {:induction false} CommandRoundTrip(url: string, format: string, quality: Option<string>, outputPath: string)
    requires '"' !in url
    ensures ParseCommand(BuildCommand(url, format, quality, outputPath)) ==
      Some(Invocation(IntendedSelector(format, quality), url, outputPath))
  {
    var selector := IntendedSelector(format, quality);
    var rest := url + OutputOption + outputPath + "\"";
    CommandLayout(url, format, quality, outputPath);
    PrefixesDistinguish(selector, rest);
    var c := PrefixOf(selector) + rest;
    assert c[|PrefixOf(selector)|..] == rest;
    TailRoundTrip(selector, url, outputPath);
  }

  /** Different timestamps or extensions never give the same file name. */
  lemma {:induction false} FileNameInjective(s1: nat, e1: string, s2: nat, e2: string)
    requires FileName(s1, e1) == FileName(s2, e2)
    ensures s1 == s2 && e1 == e2
  {
    var d1, d2 := NatToString(s1), NatToString(s2);
    var n := FileName(s1, e1);
    var rest1, rest2 := d1 + "." + e1, d2 + "." + e2;
    assert n == "download_" + rest1 && FileName(s2, e2) == "download_" + rest2;
    assert rest1 == n[9..] == rest2;
    assert '.' !in d1 && '.' !in d2;
    assert rest1 == d1 + ['.'] + e1 && rest2 == d2 + ['.'] + e2;
    IndexOfAfter(d1, '.', e1);
    IndexOfAfter(d2, '.', e2);
    assert d1 == rest1[..|d1|] && d2 == rest2[..|d2|];
    NatToStringInjective(s1, s2);
    assert e1 == rest1[|d1| + 1..] && e2 == rest2[|d2| + 1..];
  }

  // ------------------------------------------------------------------
  // The decision table

  /** A missing or empty URL or format is refused with 400, whatever the platform test would say. */
  lemma MissingFieldsFirst(req: Request, validateURL: string -> bool, ytDlpAvailable: bool,
                           root: string, stamp: nat, stampYtDlp: nat)
    requires !Truthy(req.url) || !Truthy(req.format)
    ensures DownloadDecision(req, validateURL, ytDlpAvailable, root, stamp, stampYtDlp) == Reject(400, MissingFields)
  {
  }

  /** An unrecognised platform is refused with 400. */
  lemma UnknownPlatformRefused(req: Request, validateURL: string -> bool, ytDlpAvailable: bool,
                               root: string, stamp: nat, stampYtDlp: nat)
    requires Truthy(req.url) && Truthy(req.format)
    requires Platform.DetectPlatform(validateURL, req.url.value) == "unknown"
    ensures DownloadDecision(req, validateURL, ytDlpAvailable, root, stamp, stampYtDlp) == Reject(400, UnsupportedPlatform)
  {
  }

  /**
   * On YouTube, mp3 goes through a temporary `.mp4` and an `.mp3` output that
   * share one timestamp stem.
   */
  lemma YouTubeMp3(req: Request, validateURL: string -> bool, ytDlpAvailable: bool,
                   root: string, stamp: nat, stampYtDlp: nat)
    requires Truthy(req.url) && req.format == Some("mp3") && validateURL(req.url.value)
    ensures DownloadDecision(req, validateURL, ytDlpAvailable, root, stamp, stampYtDlp) ==
      Proceed(YouTubeAudio(req.url.value, "highestaudio",
                           Join(TempDir(root), FileName(stamp, "mp4")),
                           Join(DownloadsDir(root), FileName(stamp, "mp3"))))
  {
  }

  /** On YouTube, mp4 streams straight to its output, at `highestvideo` exactly for quality 'high'. */
  lemma YouTubeMp4(req: Request, validateURL: string -> bool, ytDlpAvailable: bool,
                   root: string, stamp: nat, stampYtDlp: nat)
    requires Truthy(req.url) && req.format == Some("mp4") && validateURL(req.url.value)
    ensures var d := DownloadDecision(req, validateURL, ytDlpAvailable, root, stamp, stampYtDlp);
      && d.Proceed? && d.plan.YouTubeVideo?
      && d.plan.outputPath == Join(DownloadsDir(root), FileName(stamp, "mp4"))
      && (d.plan.ytdlQuality == "highestvideo" <==> req.quality == Some("high"))
      && (d.plan.ytdlQuality != "highestvideo" ==> d.plan.ytdlQuality == "lowestvideo")
  {
  }

  /** On YouTube, a format other than mp3 and mp4 is refused with 400. */
  lemma YouTubeOtherFormat(req: Request, validateURL: string -> bool, ytDlpAvailable: bool,
                           root: string, stamp: nat, stampYtDlp: nat)
    requires Truthy(req.url) && Truthy(req.format) && validateURL(req.url.value)
    requires req.format.value != "mp3" && req.format.value != "mp4"
    ensures DownloadDecision(req, validateURL, ytDlpAvailable, root, stamp, stampYtDlp) == Reject(400, UnsupportedFormat)
  {
  }

  /** Away from YouTube, without yt-dlp, the request is refused with 501 and no command is built. */
  lemma NonYouTubeWithoutYtDlp(req: Request, validateURL: string -> bool,
                               root: string, stamp: nat, stampYtDlp: nat)
    requires Truthy(req.url) && Truthy(req.format)
    requires Platform.DetectPlatform(validateURL, req.url.value) !in {"youtube", "unknown"}
    ensures DownloadDecision(req, validateURL, false, root, stamp, stampYtDlp) == Reject(501, NeedsYtDlp)
  {
  }

  /**
   * Away from YouTube, with yt-dlp, every format is accepted: the output is
   * `downloads/download_<second timestamp>.<format>` and, for a URL without a
   * double quote, the command line reads back to the intended selector, the
   * URL and that output path.
   */
  lemma NonYouTubeWithYtDlp(req: Request, validateURL: string -> bool,
                            root: string, stamp: nat, stampYtDlp: nat)
    requires Truthy(req.url) && Truthy(req.format)
    requires Platform.DetectPlatform(validateURL, req.url.value) !in {"youtube", "unknown"}
    ensures var d := DownloadDecision(req, validateURL, true, root, stamp, stampYtDlp);
      && d.Proceed? && d.plan.YtDlpRun?
      && d.plan.outputPath == Join(DownloadsDir(root), FileName(stampYtDlp, req.format.value))
      && ('"' !in req.url.value ==>
            ParseCommand(d.plan.command) ==
              Some(Invocation(IntendedSelector(req.format.value, req.quality), req.url.value, d.plan.outputPath)))
  {
    if '"' !in req.url.value {
      var outputPath := Join(DownloadsDir(root), FileName(stampYtDlp, req.format.value));
      CommandRoundTrip(req.url.value, req.format.value, req.quality, outputPath);
    }
  }

  /** Quality 'high' selects the best mp4; anything else, a missing quality included, the worst. */
  lemma QualityMapping(format: string, quality: Option<string>)
    requires format == "mp4"
    ensures IntendedSelector(format, quality) == BestMp4 <==> quality == Some("high")
    ensures IntendedSelector(format, quality) in {BestMp4, WorstMp4}
  {
  }

  /** The handler refuses with 501, and starts a yt-dlp run, exactly off YouTube: without and with yt-dlp respectively. */
  lemma DecisionShape(req: Request, validateURL: string -> bool, ytDlpAvailable: bool,
                      root: string, stamp: nat, stampYtDlp: nat)
    ensures var d := DownloadDecision(req, validateURL, ytDlpAvailable, root, stamp, stampYtDlp);
      && (d.Reject? && d.status == 501 <==>
            Truthy(req.url) && Truthy(req.format) && !ytDlpAvailable
            && Platform.DetectPlatform(validateURL, req.url.value) !in {"youtube", "unknown"})
      && (d.Proceed? && d.plan.YtDlpRun? <==>
            Truthy(req.url) && Truthy(req.format) && ytDlpAvailable
            && Platform.DetectPlatform(validateURL, req.url.value) !in {"youtube", "unknown"})
  {
  }

  /**
   * Two requests in the same millisecond on the same branch get the same
   * output path; different timestamps never do.
   */
  lemma OutputPathsAndStamps(root: string, s1: nat, s2: nat, format: string)
    ensures Join(DownloadsDir(root), FileName(s1, format)) == Join(DownloadsDir(root), FileName(s2, format)) <==> s1 == s2
  {
    if Join(DownloadsDir(root), FileName(s1, format)) == Join(DownloadsDir(root), FileName(s2, format)) {
      var prefix := DownloadsDir(root) + "/";
      assert FileName(s1, format) == (prefix + FileName(s1, format))[|prefix|..];
      assert FileName(s2, format) == (prefix + FileName(s2, format))[|prefix|..];
      FileNameInjective(s1, format, s2, format);
    }
  }
}

=== FILE: duration.dfy ===
/**
 * The front end's `formatDuration` (public/script.js): a second count shown as
 * `M:SS` below one hour and `H:MM:SS` from one hour on, or a fixed Spanish
 * placeholder ("unknown duration") for a falsy value.
 *
 * The input is `Option<nat>`: `None` stands for `undefined`/`null`; the falsy
 * values are `None` and `Some(0)`.
 */
module Duration {
  import opened Wrappers
  import opened Text

  const UnknownDuration := "Duración desconocida"

  /** The fields formatDuration derives from a second count. */
  datatype Clock = Clock(hours: nat, minutes: nat, secs: nat)

  /**
   * `Math.floor(seconds / 3600)`, `Math.floor((seconds % 3600) / 60)` and
   * `seconds % 60`: they recombine to the input and minutes and seconds stay
   * below 60.
   */
  function Fields(seconds: nat): (c: Clock)
    ensures c.hours * 3600 + c.minutes * 60 + c.secs == seconds
    ensures c.minutes < 60 && c.secs < 60
  {
    var rem := seconds % 3600;
    assert seconds % 60 == rem % 60 by { ModOfMod(seconds); }
    Clock(seconds / 3600, rem / 60, seconds % 60)
  }

  /** Removing whole hours does not change the count modulo a minute. */
  lemma ModOfMod(n: nat)
    ensures n % 60 == (n % 3600) % 60
  {
    var r := n % 3600;
    assert n == (n / 3600) * 3600 + r;
    assert r == (r / 60) * 60 + r % 60;
    DivUnique(n, 60, (n / 3600) * 60 + r / 60, r % 60);
  }

  /** Fields is the only decomposition with minutes and seconds below 60. */
  lemma FieldsUnique(c: Clock)
    requires c.minutes < 60 && c.secs < 60
    ensures Fields(c.hours * 3600 + c.minutes * 60 + c.secs) == c
  {
    var n := c.hours * 3600 + c.minutes * 60 + c.secs;
    var low := c.minutes * 60 + c.secs;
    DivUnique(n, 3600, c.hours, low);
    DivUnique(low, 60, c.minutes, c.secs);
    DivUnique(n, 60, c.hours * 60 + c.minutes, c.secs);
  }

  /** Quotient and remainder by a positive divisor are unique. */
  lemma DivUnique(n: nat, d: nat, q: nat, r: nat)
    requires 0 < d && r < d && n == q * d + r
    ensures n / d == q && n % d == r
  {
    var q' := n / d;
    assert (q' + 1) * d == q' * d + d;
    assert (q + 1) * d == q * d + d;
    MulCancelLt(q, q' + 1, d);
    MulCancelLt(q', q + 1, d);
  }

  lemma MulCancelLt(a: nat, b: nat, d: nat)
    requires a * d < b * d
    ensures a < b
  {
  }

  /** `n.toString().padStart(2, '0')`. */
  function Pad2(n: nat): string
  {
    PadStart(NatToString(n), 2, '0')
  }

  /** JavaScript `!seconds` for a duration that is a count or absent. */
  predicate Falsy(seconds: Option<nat>)
    ensures !Falsy(seconds) ==> seconds.Some? && seconds.value >= 1
  {
    seconds == None || seconds == Some(0)
  }

  /** The two printed shapes: `H:MM:SS` when there are hours, `M:SS` otherwise. */
  function Render(c: Clock): string
  {
    if c.hours > 0 then NatToString(c.hours) + ":" + Pad2(c.minutes) + ":" + Pad2(c.secs)
    else NatToString(c.minutes) + ":" + Pad2(c.secs)
  }

  /** formatDuration. */
  function FormatDuration(seconds: Option<nat>): (r: string)
    ensures |r| >= 4
  {
    if Falsy(seconds) then UnknownDuration else Render(Fields(seconds.value))
  }

  // ------------------------------------------------------------------
  // An independent reader for the two output shapes.

  /** `s.split(sep)` for a one-character separator. */
  function SplitOn(s: string, sep: char): (parts: seq<string>)
    ensures |parts| >= 1
    decreases |s|
  {
    if s == [] then [""]
    else
      var rest := SplitOn(s[1..], sep);
      if s[0] == sep then [""] + rest else [[s[0]] + rest[0]] + rest[1..]
  }

  lemma {:induction false} SplitNoSep(a: string, sep: char)
    requires sep !in a
    ensures SplitOn(a, sep) == [a]
    decreases |a|
  {
    if a != [] {
      SplitNoSep(a[1..], sep);
      assert [a[0]] + a[1..] == a;
    }
  }

  lemma {:induction false} SplitAtSep(a: string, sep: char, b: string)
    requires sep !in a
    ensures SplitOn(a + [sep] + b, sep) == [a] + SplitOn(b, sep)
    decreases |a|
  {
    var s := a + [sep] + b;
    if a == [] {
      assert s[1..] == b;
    } else {
      assert s[1..] == a[1..] + [sep] + b;
      SplitAtSep(a[1..], sep, b);
      assert [a[0]] + a[1..] == a;
    }
  }

  /** A field of exactly two digits whose value is below 60. */
  function ParseTwoDigits(s: string): (r: Option<nat>)
    ensures r.Some? ==> r.value < 60
  {
    if |s| == 2 && IsDigits(s) && DigitsValue(s) < 60 then Some(DigitsValue(s)) else None
  }

  /** Reads the fields of `M:SS` (no hours) or `H:MM:SS`. */
  function ReadClock(parts: seq<string>): (c: Option<Clock>)
    ensures c.Some? ==> c.value.minutes < 60 && c.value.secs < 60
  {
    if |parts| == 2 && ParseTwoDigits(parts[1]).Some? then
      match ParseNat(parts[0])
      case None => None
      case Some(m) =>
        if m < 60 then Some(Clock(0, m, ParseTwoDigits(parts[1]).value)) else None
    else if |parts| == 3 && ParseTwoDigits(parts[1]).Some? && ParseTwoDigits(parts[2]).Some? then
      match ParseNat(parts[0])
      case None => None
      case Some(h) => Some(Clock(h, ParseTwoDigits(parts[1]).value, ParseTwoDigits(parts[2]).value))
    else None
  }

  /** The second count a clock stands for. */
  function Total(c: Clock): nat
  {
    c.hours * 3600 + c.minutes * 60 + c.secs
  }

  /** Reads `M:SS` or `H:MM:SS` back into a second count. */
  function ParseDuration(s: string): (r: Option<nat>)
  {
    match ReadClock(SplitOn(s, ':'))
    case None => None
    case Some(c) => Some(Total(c))
  }

  /** A value below 60, padded to two digits, is exactly two digits and reads back. */
  lemma Pad2Reads(n: nat)
    requires n < 60
    ensures |Pad2(n)| == 2 && ':' !in Pad2(n)
    ensures ParseTwoDigits(Pad2(n)) == Some(n)
  {
    var t := NatToString(n);
    NatToStringRoundTrip(n);
    if n < 10 {
      assert Pad2(n) == "0" + t;
      LeadingZero(t);
    } else {
      assert Pad2(n) == t;
    }
  }

  lemma NoColonInNumber(n: nat)
    ensures ':' !in NatToString(n)
  {
  }

  /** The pieces a clock is printed as, in order. */
  function Pieces(c: Clock): (parts: seq<string>)
  {
    if c.hours > 0 then [NatToString(c.hours), Pad2(c.minutes), Pad2(c.secs)]
    else [NatToString(c.minutes), Pad2(c.secs)]
  }

  lemma SplitTwo(a: string, b: string)
    requires ':' !in a && ':' !in b
    ensures SplitOn(a + ":" + b, ':') == [a, b]
  {
    SplitAtSep(a, ':', b);
    SplitNoSep(b, ':');
  }

  lemma SplitThree(a: string, b: string, c: string)
    requires ':' !in a && ':' !in b && ':' !in c
    ensures SplitOn(a + ":" + b + ":" + c, ':') == [a, b, c]
  {
    assert a + ":" + b + ":" + c == a + [':'] + (b + ":" + c);
    SplitAtSep(a, ':', b + ":" + c);
    SplitTwo(b, c);
  }

  /** The colons of a printed clock separate exactly its pieces. */
  lemma RenderSplits(c: Clock)
    requires c.minutes < 60 && c.secs < 60
    ensures SplitOn(Render(c), ':') == Pieces(c)
  {
    Pad2Reads(c.minutes);
    Pad2Reads(c.secs);
    if c.hours > 0 {
      NoColonInNumber(c.hours);
      SplitThree(NatToString(c.hours), Pad2(c.minutes), Pad2(c.secs));
    } else {
      NoColonInNumber(c.minutes);
      SplitTwo(NatToString(c.minutes), Pad2(c.secs));
    }
  }

  /** The pieces of a clock read back to its fields. */
  lemma PiecesRead(c: Clock)
    requires c.minutes < 60 && c.secs < 60
    ensures ReadClock(Pieces(c)) == Some(c)
  {
    Pad2Reads(c.secs);
    if c.hours > 0 {
      NatToStringRoundTrip(c.hours);
      Pad2Reads(c.minutes);
    } else {
      NatToStringRoundTrip(c.minutes);
    }
  }

  /** A printed clock reads back to its own fields. */
  lemma RenderReads(c: Clock)
    requires c.minutes < 60 && c.secs < 60
    ensures ReadClock(SplitOn(Render(c), ':')) == Some(c)
  {
    RenderSplits(c);
    PiecesRead(c);
  }

  /** A truthy duration is printed so that it reads back to the same second count. */
  lemma {:induction false} FormatDurationRoundTrip(n: nat)
    requires n > 0
    ensures ParseDuration(FormatDuration(Some(n))) == Some(n)
  {
    var c := Fields(n);
    RenderReads(c);
    assert Total(c) == n;
  }

  /** The placeholder is printed exactly for a falsy value. */
  lemma FormatDurationUnknown(seconds: Option<nat>)
    ensures FormatDuration(seconds) == UnknownDuration <==> Falsy(seconds)
  {
    if !Falsy(seconds) {
      var c := Fields(seconds.value);
      var head := if c.hours > 0 then NatToString(c.hours) else NatToString(c.minutes);
      assert FormatDuration(seconds)[0] == head[0];
    }
  }

  /**
   * Below one hour: two fields, the minutes unpadded (the whole count of
   * minutes), the seconds two characters.
   */
  lemma {:induction false} FormatDurationShortShape(n: nat)
    requires 0 < n < 3600
    ensures var parts := SplitOn(FormatDuration(Some(n)), ':');
      |parts| == 2 && parts[0] == NatToString(n / 60) && |parts[1]| == 2
  {
    RenderSplits(Fields(n));
    Pad2Reads(Fields(n).secs);
    DivUnique(n, 3600, 0, n);
  }

  /**
   * From one hour on: three fields, the hours unpadded, minutes and seconds
   * exactly two characters each.
   */
  lemma {:induction false} FormatDurationLongShape(n: nat)
    requires n >= 3600
    ensures var parts := SplitOn(FormatDuration(Some(n)), ':');
      |parts| == 3 && parts[0] == NatToString(n / 3600) && |parts[1]| == 2 && |parts[2]| == 2
  {
    RenderSplits(Fields(n));
    Pad2Reads(Fields(n).minutes);
    Pad2Reads(Fields(n).secs);
  }
}

=== FILE: metadata.dfy ===
/**
 * Video metadata on the server (server.js): the record getVideoInfoYtDlp
 * builds from yt-dlp's JSON dump, the record getVideoInfo builds from the
 * YouTube client library or falls back to, and the decision the
 * `POST /api/info` handler makes.
 *
 * The external calls are inputs: `ytdl` is what `ytdl.getInfo(url)` returned
 * or the message it threw, `dump` is what running yt-dlp and parsing its
 * output gave or the message of the failure, and `ytDlpAvailable` is the
 * result of the `yt-dlp --version` probe.
 */
module Metadata {
  import opened Wrappers
  import opened Text
  import Platform

  /** A format descriptor: carried through unchanged, never inspected. */
  datatype FormatEntry = FormatEntry(raw: string)

  /** An element of a `thumbnails` array; its `url` may be missing. */
  datatype ThumbnailEntry = ThumbnailEntry(url: Option<string>)

  /**
   * The fields of yt-dlp's `--dump-json` object that are read. Each may be
   * missing; a `thumbnails` element may be `null`.
   */
  datatype YtDlpDump = YtDlpDump(
    title: Option<string>,
    duration: Option<nat>,
    thumbnail: Option<string>,
    thumbnails: Option<seq<Option<ThumbnailEntry>>>,
    formats: Option<seq<FormatEntry>>)

  /** The part of `ytdl.getInfo`'s answer that is read. */
  datatype YtdlInfo = YtdlInfo(
    title: string,
    lengthSeconds: nat,
    thumbnails: seq<ThumbnailEntry>,
    formats: seq<FormatEntry>)

  /** The metadata record; an absent thumbnail is `undefined` in the JSON reply. */
  datatype VideoInfo = VideoInfo(
    title: string,
    duration: nat,
    thumbnail: Option<string>,
    formats: seq<FormatEntry>,
    note: Option<string>)

  const DefaultTitle := "Video"
  const MissingToolNote := "yt-dlp no está instalado. Instálalo para soporte completo de esta plataforma."
  const InfoErrorPrefix := "Error al obtener información: "
  const YtDlpErrorPrefix := "Error al obtener información con yt-dlp: "

  /** `thumbnails?.[0]?.url`. */
  function FirstThumbnailUrl(thumbnails: Option<seq<Option<ThumbnailEntry>>>): (r: Option<string>)
    ensures r.Some? ==> thumbnails.Some? && |thumbnails.value| > 0 && thumbnails.value[0].Some?
                        && thumbnails.value[0].value.url == r
    ensures thumbnails.Some? && |thumbnails.value| > 0 && thumbnails.value[0].Some? ==> r == thumbnails.value[0].value.url
  {
    match thumbnails
    case None => None
    case Some(list) =>
      if list == [] then None
      else match list[0]
        case None => None
        case Some(entry) => entry.url
  }

  /** The first truthy candidate, or `""`: a chain `a || b || ''`. */
  function FirstTruthy(candidates: seq<Option<string>>): (r: string)
    ensures r == "" || exists k :: 0 <= k < |candidates| && Truthy(candidates[k]) && r == candidates[k].value
    decreases |candidates|
  {
    if candidates == [] then ""
    else if Truthy(candidates[0]) then candidates[0].value
    else
      var r := FirstTruthy(candidates[1..]);
      assert forall k :: 0 <= k < |candidates| - 1 ==> candidates[1..][k] == candidates[k + 1];
      r
  }

  /** The record getVideoInfoYtDlp returns for a parsed dump. */
  function InfoFromDump(d: YtDlpDump): (v: VideoInfo)
    ensures v.title != "" && v.thumbnail.Some? && v.note == None
  {
    VideoInfo(
      Or(d.title, DefaultTitle),
      if d.duration.Some? then d.duration.value else 0,
      Some(Or(d.thumbnail, Or(FirstThumbnailUrl(d.thumbnails), ""))),
      if d.formats.Some? then d.formats.value else [],
      None)
  }

  /** The record returned for a non-YouTube platform when yt-dlp is not installed. */
  function DegradedInfo(): (v: VideoInfo)
    ensures v.note.Some?
  {
    VideoInfo(DefaultTitle, 0, Some(""), [], Some(MissingToolNote))
  }

  /** getVideoInfo. */
  function GetVideoInfo(platform: string, ytdl: Result<YtdlInfo, string>, ytDlpAvailable: bool,
                        dump: Result<YtDlpDump, string>): (r: Result<VideoInfo, string>)
    ensures r.Failure? ==> StartsWith(r.error, InfoErrorPrefix)
    ensures platform != "youtube" && !ytDlpAvailable ==> r == Success(DegradedInfo())
    ensures r.Success? && r.value.note.Some? ==> r.value == DegradedInfo()
    ensures platform != "youtube" && ytDlpAvailable && dump.Success? ==> r == Success(InfoFromDump(dump.value))
    ensures platform == "youtube" && ytdl.Success? ==>
      && r.Success?
      && (ytdl.value.thumbnails == [] ==> r.value.thumbnail == None)
      && (ytdl.value.thumbnails != [] ==> r.value.thumbnail == ytdl.value.thumbnails[0].url)
  {
    if platform == "youtube" then
      match ytdl
      case Failure(m) => Failure(InfoErrorPrefix + m)
      case Success(i) =>
        Success(VideoInfo(i.title, i.lengthSeconds,
                          if i.thumbnails == [] then None else i.thumbnails[0].url,
                          i.formats, None))
    else if !ytDlpAvailable then Success(DegradedInfo())
    else
      match dump
      case Failure(m) => Failure(InfoErrorPrefix + YtDlpErrorPrefix + m)
      case Success(d) => Success(InfoFromDump(d))
  }

  /** What `POST /api/info` answers: 200 with the record and the platform key, or an error status. */
  datatype InfoReply = InfoOk(info: VideoInfo, platform: string) | InfoError(status: nat, error: string)

  /** The `POST /api/info` handler, with `ytdl.validateURL` passed in as `validateURL`. */
  function InfoEndpoint(url: Option<string>, validateURL: string -> bool, ytdl: Result<YtdlInfo, string>,
                        ytDlpAvailable: bool, dump: Result<YtDlpDump, string>): (reply: InfoReply)
    ensures reply.InfoError? ==> reply.status in {400, 500}
    ensures reply.InfoOk? ==> Truthy(url) && reply.platform == Platform.DetectPlatform(validateURL, url.value)
                              && reply.platform != "unknown"
  {
    if !Truthy(url) then InfoError(400, "URL requerida")
    else
      var platform := Platform.DetectPlatform(validateURL, url.value);
      if platform == "unknown" then InfoError(400, "Plataforma no soportada")
      else
        match GetVideoInfo(platform, ytdl, ytDlpAvailable, dump)
        case Success(info) => InfoOk(info, platform)
        case Failure(m) => InfoError(500, m)
  }

  // ------------------------------------------------------------------
  // Properties

  /**
   * Defaulting in getVideoInfoYtDlp: title 'Video', duration 0, the
   * thumbnail the first truthy of `thumbnail` and `thumbnails[0].url` (else
   * empty), formats empty; present truthy fields are carried unchanged.
   */
  lemma DumpDefaults(d: YtDlpDump)
    ensures var v := InfoFromDump(d);
      && (Truthy(d.title) ==> v.title == d.title.value)
      && (!Truthy(d.title) ==> v.title == DefaultTitle)
      && (d.duration.Some? ==> v.duration == d.duration.value)
      && (d.duration.None? ==> v.duration == 0)
      && v.thumbnail == Some(FirstTruthy([d.thumbnail, FirstThumbnailUrl(d.thumbnails)]))
      && (d.formats.Some? ==> v.formats == d.formats.value)
      && (d.formats.None? ==> v.formats == [])
  {
  }

  /** The thumbnail of a dump record is one of the URLs the dump offered, or empty. */
  lemma DumpThumbnailOffered(d: YtDlpDump)
    ensures var t := InfoFromDump(d).thumbnail.value;
      t == "" || (d.thumbnail == Some(t)) || (FirstThumbnailUrl(d.thumbnails) == Some(t))
  {
  }

  /**
   * A dump with every field missing gives the degraded record without its
   * note: the two fallbacks agree field by field.
   */
  lemma EmptyDumpIsDegraded()
    ensures InfoFromDump(YtDlpDump(None, None, None, None, None)) == DegradedInfo().(note := None)
  {
  }

  /** A missing or empty URL is rejected with 400 before anything else is looked at. */
  lemma InfoMissingUrl(url: Option<string>, validateURL: string -> bool, ytdl: Result<YtdlInfo, string>,
                       ytDlpAvailable: bool, dump: Result<YtDlpDump, string>)
    requires !Truthy(url)
    ensures InfoEndpoint(url, validateURL, ytdl, ytDlpAvailable, dump) == InfoError(400, "URL requerida")
  {
  }

  /** An unrecognised platform is rejected with 400. */
  lemma InfoUnknownPlatform(url: string, validateURL: string -> bool, ytdl: Result<YtdlInfo, string>,
                            ytDlpAvailable: bool, dump: Result<YtDlpDump, string>)
    requires url != "" && Platform.DetectPlatform(validateURL, url) == "unknown"
    ensures InfoEndpoint(Some(url), validateURL, ytdl, ytDlpAvailable, dump) == InfoError(400, "Plataforma no soportada")
  {
  }

  /** On YouTube the client library's title, length, formats and first thumbnail are reported as they are. */
  lemma InfoYouTube(url: string, validateURL: string -> bool, i: YtdlInfo,
                    ytDlpAvailable: bool, dump: Result<YtDlpDump, string>)
    requires url != "" && validateURL(url)
    ensures var reply := InfoEndpoint(Some(url), validateURL, Success(i), ytDlpAvailable, dump);
      reply.InfoOk? && reply.platform == "youtube" && reply.info.title == i.title
      && reply.info.duration == i.lengthSeconds && reply.info.formats == i.formats && reply.info.note == None
      && (i.thumbnails == [] ==> reply.info.thumbnail == None)
      && (i.thumbnails != [] ==> reply.info.thumbnail == i.thumbnails[0].url)
  {
  }

  /**
   * Without yt-dlp, a recognised non-YouTube URL is answered with the
   * degraded record (duration 0 and a note), not an error, whatever yt-dlp
   * would have produced.
   */
  lemma InfoDegradedWithoutYtDlp(url: string, validateURL: string -> bool, ytdl: Result<YtdlInfo, string>,
                                 dump: Result<YtDlpDump, string>)
    requires url != ""
    requires Platform.DetectPlatform(validateURL, url) !in {"youtube", "unknown"}
    ensures var reply := InfoEndpoint(Some(url), validateURL, ytdl, false, dump);
      reply.InfoOk? && reply.info == DegradedInfo() && reply.info.duration == 0 && reply.info.note.Some?
  {
  }

  /**
   * A failed external call becomes 500 and its message is kept at the end of
   * the error text: once prefixed on YouTube, twice on the yt-dlp path.
   */
  lemma InfoSurfacesToolMessage(url: string, validateURL: string -> bool, m: string)
    requires url != ""
    ensures validateURL(url) ==>
      InfoEndpoint(Some(url), validateURL, Failure(m), true, Failure(m)) == InfoError(500, InfoErrorPrefix + m)
    ensures !validateURL(url) && Platform.DetectPlatform(validateURL, url) != "unknown" ==>
      InfoEndpoint(Some(url), validateURL, Failure(m), true, Failure(m)) == InfoError(500, InfoErrorPrefix + YtDlpErrorPrefix + m)
  {
  }
}

=== FILE: platform.dfy ===
/**
 * The two URL classifiers: the front end's `detectPlatformFromUrl`
 * (public/script.js), which produces a display label, and the server's
 * `detectPlatform` (server.js), which produces a lower-case key. Both test
 * substrings in a fixed order and the first test that passes decides.
 *
 * The server's first test is the YouTube client library's `validateURL`,
 * whose internals are not part of this model: it is a parameter, any total
 * predicate on strings.
 */
module Platform {
  import opened Text

  /** detectPlatformFromUrl. */
  function DetectPlatformFromUrl(url: string): (answer: string)
    ensures answer in ClientLabels
    ensures Contains(url, "youtube.com") || Contains(url, "youtu.be") ==> answer == "YouTube"
  {
    if Contains(url, "youtube.com") || Contains(url, "youtu.be") then "YouTube"
    else if Contains(url, "instagram.com") then "Instagram"
    else if Contains(url, "tiktok.com") then "TikTok"
    else if Contains(url, "twitter.com") || Contains(url, "x.com") then "Twitter/X"
    else if Contains(url, "facebook.com") then "Facebook"
    else "Desconocida"
  }

  /** detectPlatform, with `ytdl.validateURL` passed in as `validateURL`. */
  function DetectPlatform(validateURL: string -> bool, url: string): (platform: string)
    ensures platform in ServerKeys
    ensures validateURL(url) ==> platform == "youtube"
    ensures platform == "youtube" ==> validateURL(url)
  {
    if validateURL(url) then "youtube"
    else if Contains(url, "instagram.com") then "instagram"
    else if Contains(url, "tiktok.com") then "tiktok"
    else if Contains(url, "twitter.com") || Contains(url, "x.com") then "twitter"
    else if Contains(url, "facebook.com") then "facebook"
    else "unknown"
  }

  const ClientLabels: set<string> := {"YouTube", "Instagram", "TikTok", "Twitter/X", "Facebook", "Desconocida"}
  const ServerKeys: set<string> := {"youtube", "instagram", "tiktok", "twitter", "facebook", "unknown"}

  /** The seven substrings the front end looks for. */
  const ClientNeedles: seq<string> :=
    ["youtube.com", "youtu.be", "instagram.com", "tiktok.com", "twitter.com", "x.com", "facebook.com"]

  // ------------------------------------------------------------------
  // A reference definition: an ordered rule table read first-match-wins.

  /** A rule: if any of the needles occurs in the URL, the result is `answer`. */
  datatype Rule = Rule(needles: seq<string>, answer: string)

  predicate Matches(rule: Rule, url: string)
  {
    exists k :: 0 <= k < |rule.needles| && Contains(url, rule.needles[k])
  }

  /** The label of the first rule that matches, or `fallback` when none does. */
  function FirstMatch(rules: seq<Rule>, url: string, fallback: string): (answer: string)
    ensures answer == fallback || exists k :: 0 <= k < |rules| && answer == rules[k].answer
    decreases |rules|
  {
    if rules == [] then fallback
    else if Matches(rules[0], url) then rules[0].answer
    else
      var r := FirstMatch(rules[1..], url, fallback);
      assert forall k :: 0 <= k < |rules| - 1 ==> rules[1..][k] == rules[k + 1];
      r
  }

  const ClientRules: seq<Rule> := [
    Rule(["youtube.com", "youtu.be"], "YouTube"),
    Rule(["instagram.com"], "Instagram"),
    Rule(["tiktok.com"], "TikTok"),
    Rule(["twitter.com", "x.com"], "Twitter/X"),
    Rule(["facebook.com"], "Facebook")
  ]

  /** The server's rules after `validateURL`: the front end's without the YouTube rule. */
  const ServerRules: seq<Rule> := [
    Rule(["instagram.com"], "instagram"),
    Rule(["tiktok.com"], "tiktok"),
    Rule(["twitter.com", "x.com"], "twitter"),
    Rule(["facebook.com"], "facebook")
  ]

  /** The first matching rule decides: every earlier rule failed and this one matched. */
  lemma {:induction false} FirstMatchAt(rules: seq<Rule>, url: string, fallback: string, k: nat)
    requires k < |rules| && Matches(rules[k], url)
    requires forall j :: 0 <= j < k ==> !Matches(rules[j], url)
    ensures FirstMatch(rules, url, fallback) == rules[k].answer
    decreases k
  {
    if k > 0 {
      assert !Matches(rules[0], url);
      assert rules[1..][k - 1] == rules[k];
      forall j | 0 <= j < k - 1 ensures !Matches(rules[1..][j], url) {
        assert rules[1..][j] == rules[j + 1];
      }
      FirstMatchAt(rules[1..], url, fallback, k - 1);
    }
  }

  /** With no rule matching, the fallback is the answer. */
  lemma {:induction false} FirstMatchNone(rules: seq<Rule>, url: string, fallback: string)
    requires forall j :: 0 <= j < |rules| ==> !Matches(rules[j], url)
    ensures FirstMatch(rules, url, fallback) == fallback
    decreases |rules|
  {
    if rules != [] {
      assert !Matches(rules[0], url);
      forall j | 0 <= j < |rules| - 1 ensures !Matches(rules[1..][j], url) {
        assert rules[1..][j] == rules[j + 1];
      }
      FirstMatchNone(rules[1..], url, fallback);
    }
  }

  lemma MatchesPair(url: string, a: string, b: string, answer: string)
    ensures Matches(Rule([a, b], answer), url) <==> Contains(url, a) || Contains(url, b)
  {
    if Contains(url, a) { assert [a, b][0] == a; }
    if Contains(url, b) { assert [a, b][1] == b; }
  }

  lemma MatchesOne(url: string, a: string, answer: string)
    ensures Matches(Rule([a], answer), url) <==> Contains(url, a)
  {
    if Contains(url, a) { assert [a][0] == a; }
  }

  /** The front end's classifier is the rule table ClientRules read first-match-wins. */
  lemma ClientFollowsRules(url: string)
    ensures DetectPlatformFromUrl(url) == FirstMatch(ClientRules, url, "Desconocida")
  {
    var rules := ClientRules;
    MatchesPair(url, "youtube.com", "youtu.be", "YouTube");
    MatchesOne(url, "instagram.com", "Instagram");
    MatchesOne(url, "tiktok.com", "TikTok");
    MatchesPair(url, "twitter.com", "x.com", "Twitter/X");
    MatchesOne(url, "facebook.com", "Facebook");
    assert rules[1..][1..][1..][1..][1..] == [];
  }

  /** The server's classifier is `validateURL`, then the rule table ServerRules. */
  lemma ServerFollowsRules(validateURL: string -> bool, url: string)
    ensures DetectPlatform(validateURL, url) ==
      if validateURL(url) then "youtube" else FirstMatch(ServerRules, url, "unknown")
  {
    var rules := ServerRules;
    MatchesOne(url, "instagram.com", "instagram");
    MatchesOne(url, "tiktok.com", "tiktok");
    MatchesPair(url, "twitter.com", "x.com", "twitter");
    MatchesOne(url, "facebook.com", "facebook");
    assert rules[1..][1..][1..][1..] == [];
  }

  /** 'Desconocida' exactly when none of the seven substrings occurs. */
  lemma ClientUnknownIff(url: string)
    ensures DetectPlatformFromUrl(url) == "Desconocida" <==>
      forall k :: 0 <= k < |ClientNeedles| ==> !Contains(url, ClientNeedles[k])
  {
    var n := ClientNeedles;
    if DetectPlatformFromUrl(url) != "Desconocida" {
      assert exists k :: 0 <= k < |n| && Contains(url, n[k]) by {
        if Contains(url, "youtube.com") { assert n[0] == "youtube.com"; }
        else if Contains(url, "youtu.be") { assert n[1] == "youtu.be"; }
        else if Contains(url, "instagram.com") { assert n[2] == "instagram.com"; }
        else if Contains(url, "tiktok.com") { assert n[3] == "tiktok.com"; }
        else if Contains(url, "twitter.com") { assert n[4] == "twitter.com"; }
        else if Contains(url, "x.com") { assert n[5] == "x.com"; }
        else { assert n[6] == "facebook.com"; }
      }
    }
  }

  /** Every label is produced by some URL, so there are exactly six. */
  lemma ClientLabelsReachable()
    ensures DetectPlatformFromUrl("youtu.be") == "YouTube"
    ensures DetectPlatformFromUrl("instagram.com") == "Instagram"
    ensures DetectPlatformFromUrl("tiktok.com") == "TikTok"
    ensures DetectPlatformFromUrl("x.com") == "Twitter/X"
    ensures DetectPlatformFromUrl("facebook.com") == "Facebook"
    ensures DetectPlatformFromUrl("") == "Desconocida"
  {
    ReachYouTube();
    ReachInstagram();
    ReachTikTok();
    ReachTwitter();
    ReachFacebook();
    ReachUnknown();
  }

  lemma ReachYouTube()
    ensures DetectPlatformFromUrl("youtu.be") == "YouTube"
  {
    assert OccursAt("youtu.be", "youtu.be", 0);
  }

  lemma ReachInstagram()
    ensures DetectPlatformFromUrl("instagram.com") == "Instagram"
  {
    var url := "instagram.com";
    assert OccursAt(url, url, 0);
    MissingChar(url, "youtube.com", 'y');
    MissingChar(url, "youtu.be", 'y');
  }

  lemma ReachTikTok()
    ensures DetectPlatformFromUrl("tiktok.com") == "TikTok"
  {
    var url := "tiktok.com";
    assert OccursAt(url, url, 0);
    MissingChar(url, "youtube.com", 'y');
    MissingChar(url, "youtu.be", 'y');
    MissingChar(url, "instagram.com", 'g');
  }

  lemma ReachTwitter()
    ensures DetectPlatformFromUrl("x.com") == "Twitter/X"
  {
    var url := "x.com";
    assert OccursAt(url, url, 0);
    MissingChar(url, "youtube.com", 'y');
    MissingChar(url, "youtu.be", 'y');
    MissingChar(url, "instagram.com", 'g');
    MissingChar(url, "tiktok.com", 'k');
  }

  lemma ReachFacebook()
    ensures DetectPlatformFromUrl("facebook.com") == "Facebook"
  {
    var url := "facebook.com";
    assert OccursAt(url, url, 0);
    MissingChar(url, "youtube.com", 'y');
    MissingChar(url, "youtu.be", 'y');
    MissingChar(url, "instagram.com", 'g');
    MissingChar(url, "tiktok.com", 't');
    MissingChar(url, "twitter.com", 't');
    MissingChar(url, "x.com", 'x');
  }

  lemma ReachUnknown()
    ensures DetectPlatformFromUrl("") == "Desconocida"
  {
  }

  /** First match wins: a YouTube substring decides even when a TikTok one is present too. */
  lemma ClientYouTubeBeatsTikTok(url: string)
    requires Contains(url, "youtu.be") && Contains(url, "tiktok.com")
    ensures DetectPlatformFromUrl(url) == "YouTube"
    ensures FirstMatch(ClientRules, url, "Desconocida") == ClientRules[0].answer
  {
    ClientFollowsRules(url);
  }

  /**
   * `x.com` is a plain substring test: a host that merely ends in `x.com`,
   * preceded by nothing the earlier rules look for, is labelled Twitter/X.
   */
  lemma {:induction false} ClientAnyXcomHost(host: string, path: string)
    requires forall k :: 0 <= k < 5 ==> !Contains("https://" + host + "x.com" + path, ClientNeedles[k])
    ensures DetectPlatformFromUrl("https://" + host + "x.com" + path) == "Twitter/X"
  {
    var url := "https://" + host + "x.com" + path;
    ContainsInfix("https://" + host, "x.com", path);
    assert ClientNeedles[0] == "youtube.com" && ClientNeedles[1] == "youtu.be";
    assert ClientNeedles[2] == "instagram.com" && ClientNeedles[3] == "tiktok.com";
    assert ClientNeedles[4] == "twitter.com";
  }

  /** An instance: a streaming site whose host ends in `x.com`. */
  lemma ClientNetflixIsTwitter()
    ensures DetectPlatformFromUrl("https://www.netflix.com/") == "Twitter/X"
  {
    var url := "https://www.netflix.com/";
    assert OccursAt(url, "x.com", 18);
    NetflixLacksEarlierNeedles();
  }

  lemma NetflixLacksEarlierNeedles()
    ensures !Contains("https://www.netflix.com/", "youtube.com")
    ensures !Contains("https://www.netflix.com/", "youtu.be")
    ensures !Contains("https://www.netflix.com/", "instagram.com")
    ensures !Contains("https://www.netflix.com/", "tiktok.com")
  {
    var url := "https://www.netflix.com/";
    assert 'y' !in url && 'g' !in url && 'k' !in url;
    MissingChar(url, "youtube.com", 'y');
    MissingChar(url, "youtu.be", 'y');
    MissingChar(url, "instagram.com", 'g');
    MissingChar(url, "tiktok.com", 'k');
  }

  /** Without `validateURL`, the server's order is instagram, tiktok, twitter/x, facebook, unknown. */
  lemma {:induction false} ServerOrder(validateURL: string -> bool, url: string, k: nat)
    requires !validateURL(url)
    requires k < |ServerRules| && Matches(ServerRules[k], url)
    requires forall j :: 0 <= j < k ==> !Matches(ServerRules[j], url)
    ensures DetectPlatform(validateURL, url) == ServerRules[k].answer
  {
    ServerFollowsRules(validateURL, url);
    FirstMatchAt(ServerRules, url, "unknown", k);
  }

  /** The server key that corresponds to a front-end label. */
  function KeyOfLabel(shown: string): (key: string)
    requires shown in ClientLabels
    ensures key in ServerKeys
  {
    match shown
    case "YouTube" => "youtube"
    case "Instagram" => "instagram"
    case "TikTok" => "tiktok"
    case "Twitter/X" => "twitter"
    case "Facebook" => "facebook"
    case _ => "unknown"
  }

  /**
   * Away from YouTube the two classifiers agree: when `validateURL` rejects
   * the URL and neither YouTube substring occurs, the server's key is the
   * key of the front end's label.
   */
  lemma ClassifiersAgreeOffYouTube(validateURL: string -> bool, url: string)
    requires !validateURL(url)
    requires !Contains(url, "youtube.com") && !Contains(url, "youtu.be")
    ensures DetectPlatform(validateURL, url) == KeyOfLabel(DetectPlatformFromUrl(url))
  {
  }

  /**
   * The server never looks for `youtube.com`: a URL that `validateURL`
   * rejects but that names `youtube.com` and nothing else the server looks
   * for is 'YouTube' in the front end and 'unknown' on the server.
   */
  lemma ServerIgnoresYoutubeDotCom(validateURL: string -> bool, url: string)
    requires !validateURL(url) && Contains(url, "youtube.com")
    requires forall k :: 2 <= k < |ClientNeedles| ==> !Contains(url, ClientNeedles[k])
    ensures DetectPlatformFromUrl(url) == "YouTube"
    ensures DetectPlatform(validateURL, url) == "unknown"
  {
    var n := ClientNeedles;
    assert n[2] == "instagram.com" && n[3] == "tiktok.com" && n[4] == "twitter.com";
    assert n[5] == "x.com" && n[6] == "facebook.com";
  }

  /** The same, on a concrete URL that `validateURL` is taken to reject. */
  lemma ServerIgnoresYoutubeDotComExample()
    ensures DetectPlatformFromUrl("youtube.com") == "YouTube"
    ensures DetectPlatform(_ => false, "youtube.com") == "unknown"
  {
    var url := "youtube.com";
    assert OccursAt(url, url, 0);
    YoutubeDotComLacksOtherNeedles();
  }

  lemma YoutubeDotComLacksOtherNeedles()
    ensures !Contains("youtube.com", "instagram.com")
    ensures !Contains("youtube.com", "tiktok.com")
    ensures !Contains("youtube.com", "twitter.com")
    ensures !Contains("youtube.com", "x.com")
    ensures !Contains("youtube.com", "facebook.com")
  {
    var url := "youtube.com";
    MissingChar(url, "instagram.com", 'i');
    MissingChar(url, "tiktok.com", 'k');
    MissingChar(url, "twitter.com", 'w');
    MissingChar(url, "x.com", 'x');
    MissingChar(url, "facebook.com", 'f');
  }

  /**
   * The two orders also disagree when `validateURL` rejects a short link:
   * the front end says YouTube for `youtu.be`, the server goes on to the
   * later substrings.
   */
  lemma ShortLinkDisagreement()
    ensures DetectPlatformFromUrl("youtu.be/tiktok.com") == "YouTube"
    ensures DetectPlatform(_ => false, "youtu.be/tiktok.com") == "tiktok"
  {
    var url := "youtu.be/tiktok.com";
    assert OccursAt(url, "youtu.be", 0);
    assert OccursAt(url, "tiktok.com", 9);
    MissingChar(url, "instagram.com", 'g');
  }
}

=== FILE: text.dfy ===
/**
 * The JavaScript string built-ins the core relies on, over `seq<char>`:
 * `includes`, `padStart`, `Number.prototype.toString` for non-negative
 * integers, truthiness of an optional string, and `trim`.
 */
module Text {
  import opened Wrappers

  // ---------------------------------------------------------------- includes

  /** `sub` occurs in `s` starting at index `i`. */
  predicate OccursAt(s: string, sub: string, i: nat)
  {
    i + |sub| <= |s| && s[i..i + |sub|] == sub
  }

  /** `s.includes(sub)`. */
  predicate Contains(s: string, sub: string)
    ensures sub == [] ==> Contains(s, sub)
    ensures Contains(s, sub) ==> |sub| <= |s|
  {
    assert sub == [] ==> OccursAt(s, sub, 0);
    exists i: nat :: i <= |s| && OccursAt(s, sub, i)
  }

  /** Whatever sits around a needle, the needle is found. */
  lemma ContainsInfix(a: string, sub: string, b: string)
    ensures Contains(a + sub + b, sub)
  {
    assert OccursAt(a + sub + b, sub, |a|);
  }

  /** A needle holding a character that the haystack lacks cannot occur in it. */
  lemma MissingChar(s: string, sub: string, c: char)
    requires c in sub && c !in s
    ensures !Contains(s, sub)
  {
  }

  /** `s.startsWith(p)`. */
  predicate StartsWith(s: string, p: string)
  {
    |p| <= |s| && s[..|p|] == p
  }

  /** `s.endsWith(p)`. */
  predicate EndsWith(s: string, p: string)
  {
    |p| <= |s| && s[|s| - |p|..] == p
  }

  /** `s.indexOf(c)`: the first position of `c`, if any. */
  function IndexOf(s: string, c: char): (r: Option<nat>)
    ensures r.None? ==> c !in s
    ensures r.Some? ==> r.value < |s| && s[r.value] == c && c !in s[..r.value]
    decreases |s|
  {
    if s == [] then None
    else if s[0] == c then Some(0)
    else
      match IndexOf(s[1..], c)
      case None => None
      case Some(i) =>
        assert s[..i + 1] == [s[0]] + s[1..][..i];
        Some(i + 1)
  }

  /** A character's first position in `a + [c] + b`, when `a` lacks it, is right after `a`. */
  lemma IndexOfAfter(a: string, c: char, b: string)
    requires c !in a
    ensures IndexOf(a + [c] + b, c) == Some(|a|)
  {
    var s := a + [c] + b;
    assert s[|a|] == c;
    assert s[..|a|] == a;
  }

  // ------------------------------------------------------------ truthiness

  /** JavaScript truthiness of a value that is a string or absent (`undefined`, `null`). */
  predicate Truthy(o: Option<string>)
  {
    o.Some? && o.value != ""
  }

  /** `o || fallback` for an optional string. */
  function Or(o: Option<string>, fallback: string): (r: string)
    ensures Truthy(o) ==> r == o.value
    ensures !Truthy(o) ==> r == fallback
  {
    if Truthy(o) then o.value else fallback
  }

  // --------------------------------------------------------------- digits

  predicate IsDigit(c: char)
  {
    '0' <= c <= '9'
  }

  predicate IsDigits(s: string)
  {
    forall i :: 0 <= i < |s| ==> IsDigit(s[i])
  }

  function DigitChar(d: nat): (c: char)
    requires d < 10
    ensures IsDigit(c) && DigitValue(c) == d
  {
    (('0' as int) + d) as char
  }

  function DigitValue(c: char): (d: nat)
    requires IsDigit(c)
    ensures d < 10
  {
    (c as int) - ('0' as int)
  }

  /** `n.toString()` for a non-negative integer: decimal, no leading zero. */
  function NatToString(n: nat): (r: string)
    ensures |r| >= 1 && IsDigits(r)
    ensures r[0] == '0' ==> n == 0
    ensures n < 10 <==> |r| == 1
    ensures 10 <= n < 100 ==> |r| == 2
    decreases n
  {
    if n < 10 then [DigitChar(n)] else NatToString(n / 10) + [DigitChar(n % 10)]
  }

  /** The number a string of decimal digits denotes (leading zeros allowed). */
  function DigitsValue(s: string): nat
    requires IsDigits(s)
    decreases |s|
  {
    if s == [] then 0 else DigitsValue(s[..|s| - 1]) * 10 + DigitValue(s[|s| - 1])
  }

  /** Reads a non-empty string of decimal digits; anything else is rejected. */
  function ParseNat(s: string): (r: Option<nat>)
    ensures r.Some? <==> s != [] && IsDigits(s)
  {
    if s != [] && IsDigits(s) then Some(DigitsValue(s)) else None
  }

  /** Decimal rendering is inverted by decimal reading. */
  lemma {:induction false} NatToStringRoundTrip(n: nat)
    ensures ParseNat(NatToString(n)) == Some(n)
    decreases n
  {
    if n >= 10 {
      var r := NatToString(n);
      var d := DigitChar(n % 10);
      assert r == NatToString(n / 10) + [d];
      assert r[..|r| - 1] == NatToString(n / 10) && r[|r| - 1] == d;
      NatToStringRoundTrip(n / 10);
      assert DigitsValue(NatToString(n / 10)) == n / 10;
      assert DigitsValue(r) == (n / 10) * 10 + n % 10;
    }
  }

  /** Decimal rendering is injective. */
  lemma NatToStringInjective(m: nat, n: nat)
    requires NatToString(m) == NatToString(n)
    ensures m == n
  {
    NatToStringRoundTrip(m);
    NatToStringRoundTrip(n);
  }

  /** A leading zero does not change the value of a digit string. */
  lemma {:induction false} LeadingZero(t: string)
    requires IsDigits(t)
    ensures IsDigits("0" + t) && DigitsValue("0" + t) == DigitsValue(t)
    decreases |t|
  {
    if t != [] {
      var z := "0" + t;
      assert z[..|z| - 1] == "0" + t[..|t| - 1];
      LeadingZero(t[..|t| - 1]);
    }
  }

  // -------------------------------------------------------------- padStart

  /** `s.padStart(width, pad)` for a one-character pad string. */
  function PadStart(s: string, width: nat, pad: char): (r: string)
    ensures |r| == if |s| < width then width else |s|
    ensures r[|r| - |s|..] == s
    ensures forall i :: 0 <= i < |r| - |s| ==> r[i] == pad
  {
    if |s| >= width then s else seq(width - |s|, _ => pad) + s
  }

  // ------------------------------------------------------------------ trim

  /** The characters `String.prototype.trim` removes: ECMAScript WhiteSpace and LineTerminator. */
  predicate IsJsSpace(c: char)
  {
    var k := c as int;
    k == 0x09 || k == 0x0A || k == 0x0B || k == 0x0C || k == 0x0D || k == 0x20
    || k == 0xA0 || k == 0x1680 || (0x2000 <= k <= 0x200A) || k == 0x2028 || k == 0x2029
    || k == 0x202F || k == 0x205F || k == 0x3000 || k == 0xFEFF
  }

  predicate AllSpace(s: string)
  {
    forall i :: 0 <= i < |s| ==> IsJsSpace(s[i])
  }

  /** Drops leading white space: the result is a suffix of `s`, what was dropped is all white space. */
  function TrimStart(s: string): (r: string)
    ensures |r| <= |s| && r == s[|s| - |r|..]
    ensures AllSpace(s[..|s| - |r|])
    ensures r == [] || !IsJsSpace(r[0])
    decreases |s|
  {
    if s != [] && IsJsSpace(s[0]) then
      var r := TrimStart(s[1..]);
      assert s[..|s| - |r|] == [s[0]] + s[1..][..|s| - 1 - |r|];
      r
    else s
  }

  /** Drops trailing white space: the result is a prefix of `s`, what was dropped is all white space. */
  function TrimEnd(s: string): (r: string)
    ensures |r| <= |s| && r == s[..|r|]
    ensures AllSpace(s[|r|..])
    ensures r == [] || !IsJsSpace(r[|r| - 1])
    decreases |s|
  {
    if s != [] && IsJsSpace(s[|s| - 1]) then
      var r := TrimEnd(s[..|s| - 1]);
      assert s[|r|..] == s[..|s| - 1][|r|..] + [s[|s| - 1]];
      r
    else s
  }

  /** `s.trim()`: a contiguous piece of `s`, white space only around it, no white space at either end. */
  function Trim(s: string): (r: string)
    ensures exists i, j :: 0 <= i <= j <= |s| && r == s[i..j] && AllSpace(s[..i]) && AllSpace(s[j..])
    ensures r == [] || (!IsJsSpace(r[0]) && !IsJsSpace(r[|r| - 1]))
  {
    var t := TrimStart(s);
    var r := TrimEnd(t);
    SliceBetweenSpace(s, t, r);
    r
  }

  /** A suffix of `s` cut after white space, then cut before white space, is a slice with white space around it. */
  lemma SliceBetweenSpace(s: string, t: string, r: string)
    requires |t| <= |s| && t == s[|s| - |t|..] && AllSpace(s[..|s| - |t|])
    requires |r| <= |t| && r == t[..|r|] && AllSpace(t[|r|..])
    ensures exists i, j :: 0 <= i <= j <= |s| && r == s[i..j] && AllSpace(s[..i]) && AllSpace(s[j..])
  {
    var i := |s| - |t|;
    var j := i + |r|;
    assert r == s[i..j];
    assert s[j..] == t[|r|..];
  }
}

=== FILE: wrappers.dfy ===
/** Option and Result, for JavaScript values that may be absent and for calls that may throw. */
module Wrappers {

  datatype Option<+T> = None | Some(value: T)

  datatype Result<+R, +E> = Success(value: R) | Failure(error: E)
}
